=== FILE: README.md ===
# Four deterministic finite automata, one engine

The repository holds four small recognisers, one Python class `AutomataFinito`
per file. Each hardcodes a set of states, an alphabet, a transition dictionary
keyed by `(state, symbol)`, a start state `q0` and a set of final states. Its
`procesar_cadena` returns `(accepted, trace, label)`, where the label is
`"Aceptada"` or `"Rechazada"`.

- `at1ej1.py` works over `{a, b}` with states q0..q4. The final state is q4, and q3 is a dead end.
- `at1ej2.py` recognises identifiers `[A-Z][a-z]*[0-9]+` over ASCII letters and digits.
- `at2ej1.py` recognises codes: two uppercase letters, three digits with rules about zeros, then one uppercase letter. States q0..q9.
- `at2ej2.py` validates institutional e-mail addresses in two phases:
  - the automaton walks the user part and the `@`;
  - the domain is compared with the literal `"uptc.edu.co"`.

The model has one generic engine and four concrete tables:

- `Dfa` has the `Automaton` datatype, the simulation `Walk`/`Run`, and the source's return triple `Process`. It also holds the engine's general properties: the trace is a path, determinism, textbook acceptance, the two early-stop causes, dead states and well-formedness.
- `TwoSymbol`, `Identifier` and `Code` each define the table as a constant. Each proves an if-and-only-if between acceptance and a plain description of the language, plus the verdicts of the file's own test strings and the traces of some of them.
- `Email` models the two-phase validator on top of the same `Walk`. `Strings` models Python's `str.split` on one character.

The engine also records why a run stopped: invalid symbol, missing transition or non-final state. The source does not report this. It returns only the boolean, the trace and the label, and `Process` returns only those.

Some comments disagree with the code. The model follows the code:

- `at2ej1.py:241` says `"BI645K"` is rejected, but the table accepts it through q0, q1, q2, q3, q6, q8, q9 (`Code.TraceOfBI645K`).
- `at1ej1.py:198-199` describes the language as "an 'a' eventually followed by another 'a', or ending in 'a'". The table actually accepts exactly the strings over {a, b} that have at least two symbols, end in `a` and never contain `bb` (`TwoSymbol.AcceptsIffInLanguage`). For example, `"abba"` is rejected.
- The constructor docstring at `at2ej2.py:11` gives the pattern `[a-z][0-9]*@uptc.edu.co`. The table and `procesar_cadena` (`at2ej2.py:47`) allow `[a-z][a-z0-9]*`, and that is what is modelled.

## Model

| member | source | states |
|---|---|---|
| Dfa.Tabulate | at1ej2.py:24-40 | the table has a key for a declared state and alphabet symbol exactly when the transition function is defined there, and it maps that key to the function's target |
| Dfa.Walk | at1ej1.py:37-48 | the trace starts at the current state and has at most one state more than the input has symbols; the walk reads the whole input iff the trace has exactly one more; it accepts iff it read everything and ended in a final state |
| Dfa.WalkTraceIsPath | at1ej1.py:40-48 | consecutive trace states are joined by the transition on the consumed symbol; an invalid-symbol stop is at a symbol outside the alphabet; a no-transition stop is at an alphabet symbol with no key from the last state |
| Dfa.Run | at1ej1.py:33-51 | the trace is never empty and begins with the start state; an accepted run's trace is a full path for the input that ends in a final state |
| Dfa.Process | at1ej1.py:50-51 | the returned flag is true iff the trace is a full path ending in a final state; the label is "Aceptada" iff accepted and "Rechazada" iff rejected |
| Dfa.WalkDecidesLanguage | at1ej1.py:40-51 | any per-state family of languages that satisfies the automaton's one-step equations is exactly the set of strings the walk accepts |
| Dfa.WalkFollowsPath | at1ej1.py:40-48 | a path for the whole input is exactly the trace the walk records, and the walk then reads everything |
| Dfa.PathUnique | at1ej1.py:40-48 | determinism: two paths for the same input from the same state are equal |
| Dfa.AcceptsIffFinalPath | at1ej1.py:40-51 | a string is accepted iff some path for it from the start state ends in a final state |
| Dfa.EmptyInput | at1ej1.py:37-51 | empty input gives the trace [start] and is accepted iff the start state is final |
| Dfa.InvalidSymbolRejects | at1ej1.py:40-42 | a symbol outside the alphabet at position i means rejection, with at most i + 1 states in the trace |
| Dfa.InvalidSymbolStopsThere | at1ej1.py:40-42 | after a prefix that has a path, an invalid symbol stops the walk with exactly that path as trace and cause invalid symbol |
| Dfa.DeadStateRejects | at1ej1.py:44-45 | from a state with no outgoing key, any non-empty input is rejected and the trace stays at that state |
| Dfa.TraceInStates | at1ej1.py:16-48 | in a table whose keys and targets use declared states, every state of a trace is declared |
| Dfa.AcceptedEndsWith | at1ej1.py:44-51 | if the start is not final and every transition into a final state reads c, every accepted string is non-empty and ends with c |
| TwoSymbol.WellFormedTable | at1ej1.py:16-31 | the {a,b} table uses only q0..q4 and a, b, with start q0 and finals {q4} among the states |
| TwoSymbol.LanguageStep | at1ej1.py:22-31 | each state's language splits on the first symbol exactly as that state's row of the table does |
| TwoSymbol.AcceptsIffInLanguage | at1ej1.py:22-51 | accepted iff the string is over {a,b}, has at least two symbols, ends in 'a' and contains no "bb" |
| TwoSymbol.AcceptedEndsWithA | at1ej1.py:22-31 | every accepted string is non-empty and ends with 'a', because q4 is only entered on 'a' |
| TwoSymbol.Q3IsDead | at1ej1.py:22-45 | from q3 any further symbol rejects, and the trace stays [q3] |
| TwoSymbol.TraceStaysInStates | at1ej1.py:16-31 | every state of a run is one of q0..q4 |
| TwoSymbol.AcceptedExamples | at1ej1.py:22-31 | "aa" is accepted via q0,q1,q4 and "ba" via q0,q2,q4 |
| TwoSymbol.RejectedExamples | at1ej1.py:37-51 | "" gives [q0]; "a" ends in q1; "bb" ends in q3 (non-final); "bba" stops in q3 with no transition; "abc" stops at 'c', outside the alphabet |
| TwoSymbol.TraceOfAbba | at1ej1.py:159 | abba goes q0,q1,q2,q3 and stops in q3 with no transition on the last 'a' |
| TwoSymbol.TraceOfAbbabba | at1ej1.py:162 | abbabba goes q0,q1,q2,q3 and stops in q3 with no transition |
| TwoSymbol.TraceOfBbbbbbb | at1ej1.py:165 | bbbbbbb goes q0,q2,q3 and stops in q3 with no transition |
| TwoSymbol.TraceOfAbabba | at1ej1.py:168 | ababba goes q0,q1,q2,q4,q2,q3 and stops in q3 with no transition |
| TwoSymbol.TraceOfAaaaaaa | at1ej1.py:166 | aaaaaaa is accepted via q0,q1 and then q4 six times |
| TwoSymbol.DoubleBRejects | at1ej1.py:28 | any string containing "bb" is rejected |
| TwoSymbol.TestListRejected | at1ej1.py:158-170 | the test strings abba, aababaabb, abbabba, abababababab, babbaaaba, bbbbbbb, ababba and aabbbaaa are rejected |
| TwoSymbol.TestListAccepted | at1ej1.py:158-170 | the test strings abaababa, aaaaaaa and abaaaaabaaaa are accepted |
| Identifier.Transitions | at1ej2.py:26-40 | a (state, symbol) pair is a key exactly when it is q0 with A-Z, q1 with a-z or 0-9, or q2 with 0-9; q0 goes to q1, q1 stays on a letter and goes to q2 on a digit, q2 stays on digits |
| Identifier.WellFormedTable | at1ej2.py:17-40 | the identifier table stays inside {q0,q1,q2} and the ASCII letter/digit alphabet |
| Identifier.LanguageStep | at1ej2.py:26-40 | each state's language splits on the first symbol exactly as the table's row does |
| Identifier.AcceptsIffInLanguage | at1ej2.py:26-60 | accepted iff the string is one uppercase letter, then lowercase letters, then at least one digit |
| Identifier.NonAlphanumericRejects | at1ej2.py:19-51 | a character that is not an ASCII letter or digit at position i rejects, with at most i + 1 trace states |
| Identifier.LetterAfterDigitRejects | at1ej2.py:38-54 | a letter right after a digit always rejects, because q2 only loops on digits |
| Identifier.NoUppercaseStartStaysAtQ0 | at1ej2.py:26-54 | a string that does not start with an uppercase letter is rejected with the trace [q0] |
| Identifier.SecondUppercaseRejects | at1ej2.py:30-54 | two leading uppercase letters stop at q1 with no transition, with the trace [q0,q1] |
| Identifier.EmptyRejected | at1ej2.py:46-60 | empty input is rejected with the trace [q0] |
| Identifier.TestListAccepted | at1ej2.py:213-218 | A123, Sogamoso2025, Uptc9, X0 and Z99 are accepted |
| Identifier.TestListRejected | at1ej2.py:219-224 | 1234, soga2025 and aa99 are rejected with the trace [q0]; UPTC and AAT with the trace [q0,q1] |
| Code.Transitions | at2ej1.py:26-60 | a pair is a key exactly when it is q0, q1 or q8 with A-Z, or q2, q3, q4, q6 or q7 with 0-9, so q5 and q9 have none; the targets are q0→q1, q1→q2, q8→q9, q6→q8, and on '0' against 1-9: q2→q4/q3, q3→q7/q6, q4→q5/q6, q7→q5/q8 |
| Code.WellFormedTable | at2ej1.py:17-60 | the code table stays inside q0..q9 and the uppercase/digit alphabet |
| Code.LanguageStep | at2ej1.py:26-60 | each state's language splits on the first symbol exactly as the table's row does |
| Code.AcceptsIffInLanguage | at2ej1.py:26-80 | accepted iff six symbols: two uppercase letters, three digits whose middle digit is 0 only if the first and last are both nonzero, then an uppercase letter |
| Code.AcceptedShape | at2ej1.py:26-80 | every accepted input has length 6 and a trace of 7 states ending in q9 |
| Code.DeadEnds | at2ej1.py:17-74 | from q5 or q9 any further symbol rejects with the trace staying at that state |
| Code.ZeroBlockRejects | at2ej1.py:34-56 | a digit block whose middle digit is 0 next to another 0 (00x or x00) is rejected |
| Code.TestListAccepted | at2ej1.py:235-243 | AS345S, CV657C, HI890I and BI645K are accepted |
| Code.TestListRejected | at2ej1.py:235-243 | ASD123S, HL001V, 39CVB0, Im456c and HJCMB579ZX are rejected |
| Code.TraceOfBI645K | at2ej1.py:241 | BI645K is accepted via q0,q1,q2,q3,q6,q8,q9, against the comment's verdict |
| Code.TraceOfHL001V | at2ej1.py:238 | HL001V reaches q5 via q0,q1,q2,q4 and stops there with no transition |
| Code.TraceOfIm456c | at2ej1.py:240 | Im456c stops at the lowercase 'm', outside the alphabet, with the trace [q0,q1] |
| Email.Transitions | at2ej2.py:24-39 | a pair is a key exactly when it is q0 with a-z, or q1 with a-z, 0-9 or '@'; q0 goes to q1, q1 stays on letters and digits and goes to q2 on '@'; '.' is in the alphabet but has no key from q1 |
| Email.WellFormedTable | at2ej2.py:17-39 | the e-mail table stays inside {q0,q1,q2} and its alphabet |
| Email.Validate | at2ej2.py:44-95 | every result's trace begins at q0; the label is "Aceptada" iff accepted; an accepted trace ends in the final state q2 |
| Email.UserWalk | at2ej2.py:30-82 | from q1, an @-free user part is read to the end iff it holds only lowercase letters and digits, and then the trace is all q1 |
| Email.UserTrace | at2ej2.py:26-82 | a user part matching [a-z][a-z0-9]* is read to the end with the trace q0 followed by one q1 per symbol |
| Email.BadUserStops | at2ej2.py:74-79 | a user part starting with a lowercase letter but holding some other character stops before its end |
| Email.SplitOnce | at2ej2.py:56-63 | an input with one '@' splits into exactly the user part and the domain |
| Email.EmptyRejected | at2ej2.py:49-50 | empty input returns (False, [q0], "Rechazada") |
| Email.AtCountRejects | at2ej2.py:56-61 | zero '@', or two or more, returns (False, [q0], "Rechazada") |
| Email.BadUserStartRejects | at2ej2.py:66-71 | an empty user part, or one not starting with a lowercase letter, returns (False, [q0], "Rechazada") |
| Email.DotInUserRejects | at2ej2.py:74-79 | a '.' in the user part always rejects |
| Email.ValidUserTrace | at2ej2.py:74-95 | after a valid user part the trace is q0, one q1 per user symbol, then q2; acceptance then depends only on the domain equalling "uptc.edu.co" |
| Email.AcceptsIffInstitutionalEmail | at2ej2.py:44-95 | accepted iff the input is u + "@uptc.edu.co" with u matching [a-z][a-z0-9]* |
| Email.TestListAccepted | at2ej2.py:231-233 | juan3@, maria@ and abc123@uptc.edu.co are accepted |
| Email.TestListBadStart | at2ej2.py:234-236 | 123juan@uptc.edu.co and MARIA@uptc.edu.co are rejected with the trace [q0] |
| Email.WrongDomainRejected | at2ej2.py:235 | juan@uptc.com is rejected, although its trace q0,q1,q1,q1,q1,q2 ends in the final state q2 |
| Strings.Count | at2ej2.py:56 | the count is zero iff the character does not occur |
| Strings.Split | at2ej2.py:59 | split gives one more part than there are separators; no part holds the separator; joining the parts gives back the input |
| Strings.SplitJoin | at2ej2.py:59-63 | splitting undoes joining when no part holds the separator |

## Left out

- `visualizar` (every file): drawing with matplotlib and networkx. It is presentation only and does not affect any verdict.
- `obtener_tabla_transiciones` (every file): builds a pandas DataFrame to display the table. Foreign library, display only.
- `obtener_tabla_completa_patrones` (`at1ej2.py`, `at2ej1.py`, `at2ej2.py`): fixed descriptive strings with no logic.
- `principal` (every file): console printing. Its test strings appear only as the expected verdicts in the `TestList*` and `Trace*` lemmas.
- State names are the constructors `Q0`..`Q9` rather than the strings `'q0'`..`'q9'`. Only equality between states matters to the code.
- The dictionaries built by `for` loops are written as a transition function per state (`Next`) that `Tabulate` turns into the map. The two-symbol table is written as the literal dictionary it is in the source.
- Email.Validate: `usuario[0].islower()` and `isalpha()` are modelled as the ASCII test a-z. A non-ASCII lowercase letter passes Python's test but is then rejected by the alphabet check with the same trace [q0], so the result is the same.
- Dfa.Process: the label is modelled, but the model never claims the source reports why a run stopped. The cause kept in `Outcome` is internal to the model.
- Strings.Split: only one-character separators are modelled, which is the only use in the source.

=== FILE: chars.dfy ===
/**
 * ASCII character classes used by the recognisers: the sets that Python's
 * `string.ascii_uppercase`, `string.ascii_lowercase` and `string.digits`
 * enumerate.
 */
module Chars {

  predicate IsUpper(c: char) { 'A' <= c <= 'Z' }

  predicate IsLower(c: char) { 'a' <= c <= 'z' }

  predicate IsDigit(c: char) { '0' <= c <= '9' }

  /** A nonzero decimal digit, the class the code recogniser spells '123456789'. */
  predicate IsNonzeroDigit(c: char) { '1' <= c <= '9' }

  const Uppers: set<char> := set c: char | IsUpper(c)

  const Lowers: set<char> := set c: char | IsLower(c)

  const Digits: set<char> := set c: char | IsDigit(c)

  /** Every character of `s` satisfies the class. */
  predicate AllLower(s: string) { forall i | 0 <= i < |s| :: IsLower(s[i]) }

  predicate AllDigits(s: string) { forall i | 0 <= i < |s| :: IsDigit(s[i]) }

  /** The user-name class of the e-mail validator: lowercase letters and digits. */
  predicate AllLowerOrDigit(s: string) { forall i | 0 <= i < |s| :: IsLower(s[i]) || IsDigit(s[i]) }
}

=== FILE: code.dfy ===
/**
 * The code recogniser: two uppercase letters, a block of three digits and a
 * final uppercase letter, over the alphabet of uppercase letters and digits.
 * States q0..q9, final state q9. The digit block branches on zeros: q4 is
 * reached by a leading '0', q7 by a nonzero digit followed by '0', and a
 * further '0' from either leads to the dead end q5. q9 is a dead end too.
 */
module Code {
  import opened Chars
  import opened Dfa
  import opened States

  const Alphabet: set<char> := Uppers + Digits

  /**
   * The transition function as the constructor's comments write it:
   * q0, q1 and q8 move on A..Z; the digit states branch on '0' against 1..9.
   */
  function Next(q: State, c: char): Option<State> {
    match q
    case Q0 => if IsUpper(c) then Some(Q1) else None
    case Q1 => if IsUpper(c) then Some(Q2) else None
    case Q2 => if IsNonzeroDigit(c) then Some(Q3) else if c == '0' then Some(Q4) else None
    case Q3 => if IsNonzeroDigit(c) then Some(Q6) else if c == '0' then Some(Q7) else None
    case Q4 => if c == '0' then Some(Q5) else if IsNonzeroDigit(c) then Some(Q6) else None
    case Q6 => if IsDigit(c) then Some(Q8) else None
    case Q7 => if c == '0' then Some(Q5) else if IsNonzeroDigit(c) then Some(Q8) else None
    case Q8 => if IsUpper(c) then Some(Q9) else None
    case Q5 => None
    case Q9 => None
  }

  const Table: Automaton<State> := Automaton(
    {Q0, Q1, Q2, Q3, Q4, Q5, Q6, Q7, Q8, Q9},
    Alphabet,
    Tabulate({Q0, Q1, Q2, Q3, Q4, Q5, Q6, Q7, Q8, Q9}, Alphabet, Next),
    Q0,
    {Q9})

  /**
   * The digit blocks that avoid q5: the block is rejected exactly when it
   * starts "00", or starts with a nonzero digit followed by "00".
   */
  predicate ValidBlock(d1: char, d2: char, d3: char) {
    IsDigit(d1) && IsDigit(d2) && IsDigit(d3) && (d2 != '0' || (d1 != '0' && d3 != '0'))
  }

  /** Two uppercase letters, an allowed three-digit block, an uppercase letter. */
  predicate InLanguage(w: string) {
    && |w| == 6
    && IsUpper(w[0]) && IsUpper(w[1])
    && ValidBlock(w[2], w[3], w[4])
    && IsUpper(w[5])
  }

  /** What remains to be read from each state for the string to be accepted. */
  ghost predicate AcceptedFrom(q: State, w: string) {
    match q
    case Q0 => InLanguage(w)
    case Q1 => |w| == 5 && IsUpper(w[0]) && ValidBlock(w[1], w[2], w[3]) && IsUpper(w[4])
    case Q2 => |w| == 4 && ValidBlock(w[0], w[1], w[2]) && IsUpper(w[3])
    case Q3 => |w| == 3 && IsDigit(w[0]) && IsDigit(w[1]) && (w[0] != '0' || w[1] != '0') && IsUpper(w[2])
    case Q4 => |w| == 3 && IsNonzeroDigit(w[0]) && IsDigit(w[1]) && IsUpper(w[2])
    case Q5 => false
    case Q6 => |w| == 2 && IsDigit(w[0]) && IsUpper(w[1])
    case Q7 => |w| == 2 && IsNonzeroDigit(w[0]) && IsUpper(w[1])
    case Q8 => |w| == 1 && IsUpper(w[0])
    case Q9 => |w| == 0
  }

  /**
   * The table's keys and targets, row by row: q0, q1 and q8 move on A..Z; the
   * digit states q2, q3, q4, q6 and q7 move on 0..9, branching on '0' against
   * 1..9; q5 and q9 have no transitions.
   */
  lemma Transitions(q: State, c: char)
    ensures (q, c) in Table.delta <==>
              ((q == Q0 || q == Q1 || q == Q8) && IsUpper(c)) ||
              ((q == Q2 || q == Q3 || q == Q4 || q == Q6 || q == Q7) && IsDigit(c))
    ensures (Q0, c) in Table.delta ==> Table.delta[(Q0, c)] == Q1
    ensures (Q1, c) in Table.delta ==> Table.delta[(Q1, c)] == Q2
    ensures (Q2, c) in Table.delta ==> Table.delta[(Q2, c)] == (if c == '0' then Q4 else Q3)
    ensures (Q3, c) in Table.delta ==> Table.delta[(Q3, c)] == (if c == '0' then Q7 else Q6)
    ensures (Q4, c) in Table.delta ==> Table.delta[(Q4, c)] == (if c == '0' then Q5 else Q6)
    ensures (Q6, c) in Table.delta ==> Table.delta[(Q6, c)] == Q8
    ensures (Q7, c) in Table.delta ==> Table.delta[(Q7, c)] == (if c == '0' then Q5 else Q8)
    ensures (Q8, c) in Table.delta ==> Table.delta[(Q8, c)] == Q9
  {
  }

  /** The table holds exactly the transitions of `Next`. */
  lemma Tabulated(q: State, c: char)
    ensures (q, c) in Table.delta <==> c in Alphabet && Next(q, c).Some?
    ensures (q, c) in Table.delta ==> Table.delta[(q, c)] == Next(q, c).value
  {
  }

  lemma WellFormedTable()
    ensures WellFormed(Table)
  {
  }

  lemma LanguageStep(q: State, w: string)
    requires q in Table.states && |w| > 0
    ensures AcceptedFrom(q, w) <==>
              w[0] in Table.alphabet && (q, w[0]) in Table.delta && AcceptedFrom(Table.delta[(q, w[0])], w[1..])
  {
    Tabulated(q, w[0]);
  }

  /**
   * The table accepts exactly two uppercase letters, a digit block that is
   * neither "00x" nor "n00" with n nonzero, and an uppercase letter.
   */
  lemma AcceptsIffInLanguage(w: string)
    ensures Run(Table, w).Accepted() <==> InLanguage(w)
  {
    WellFormedTable();
    forall p, v | p in Table.states && |v| > 0
      ensures AcceptedFrom(p, v) <==>
                v[0] in Table.alphabet && (p, v[0]) in Table.delta && AcceptedFrom(Table.delta[(p, v[0])], v[1..])
    {
      LanguageStep(p, v);
    }
    WalkDecidesLanguage(Table, AcceptedFrom, Q0, w);
  }

  /** Every accepted input has six symbols and a trace of seven states ending in q9. */
  lemma AcceptedShape(w: string)
    ensures Run(Table, w).Accepted() ==>
              |w| == 6 && |Run(Table, w).trace| == 7 && Last(Run(Table, w).trace) == Q9
  {
    AcceptsIffInLanguage(w);
  }

  /** q5 and q9 have no outgoing transition: any further symbol rejects. */
  lemma DeadEnds(q: State, w: string)
    requires q == Q5 || q == Q9
    requires |w| > 0
    ensures Walk(Table, q, w).trace == [q]
    ensures !Walk(Table, q, w).Accepted()
  {
    forall c ensures (q, c) !in Table.delta {
      Tabulated(q, c);
    }
    DeadStateRejects(Table, q, w);
  }

  /** A block "00x", or "n00" with n nonzero, ends in q5 and is rejected. */
  lemma ZeroBlockRejects(w: string)
    requires |w| >= 5 && IsDigit(w[2]) && IsDigit(w[3]) && IsDigit(w[4])
    requires w[3] == '0' && (w[2] == '0' || w[4] == '0')
    ensures !Run(Table, w).Accepted()
  {
    AcceptsIffInLanguage(w);
  }

  const TestAccepted: seq<string> := ["AS345S", "CV657C", "HI890I", "BI645K"]
  const TestRejected: seq<string> := ["ASD123S", "HL001V", "39CVB0", "Im456c", "HJCMB579ZX"]

  /**
   * The accepted strings of the test list. "BI645K" is among them: its
   * comment says it is rejected, but the table accepts it.
   */
  lemma TestListAccepted(w: string)
    requires w in TestAccepted
    ensures Run(Table, w).Accepted()
  {
    assert InLanguage(w);
    AcceptsIffInLanguage(w);
  }

  lemma TestListRejected(w: string)
    requires w in TestRejected
    ensures !Run(Table, w).Accepted()
  {
    AcceptsIffInLanguage(w);
  }

  /** "BI645K" goes through q0, q1, q2, q3, q6, q8, q9. */
  lemma TraceOfBI645K()
    ensures Run(Table, "BI645K") == Outcome([Q0, Q1, Q2, Q3, Q6, Q8, Q9], Accept)
  {
  }

  /** "HL001V" reaches the dead end q5 and stops at the 'V'. */
  lemma TraceOfHL001V()
    ensures Run(Table, "HL001V") == Outcome([Q0, Q1, Q2, Q4, Q5], RejectNoTransition)
  {
  }

  /** Lowercase letters are outside the alphabet: "Im456c" stops at the 'm'. */
  lemma TraceOfIm456c()
    ensures Run(Table, "Im456c") == Outcome([Q0, Q1], RejectInvalidSymbol)
  {
  }
}

=== FILE: dfa.dfy ===
/**
 * The deterministic finite automaton engine shared by all four recognisers.
 *
 * An automaton is the immutable tuple (states, alphabet, transitions, start,
 * finals). Running it on a string walks one symbol at a time: a symbol outside
 * the alphabet stops the walk, a (state, symbol) pair with no transition stops
 * the walk, and otherwise the new state is appended to the trace. When the
 * whole input is consumed the string is accepted exactly when the current
 * state is final.
 */
module Dfa {

  datatype Automaton<S(==)> = Automaton(
    states: set<S>,
    alphabet: set<char>,
    delta: map<(S, char), S>,
    start: S,
    finals: set<S>)

  datatype Option<T> = None | Some(value: T)

  /**
   * The transition table of a transition function given state by state and
   * symbol class by symbol class: one key for every declared state and
   * alphabet symbol on which `next` is defined. The source's constructors
   * build the same dictionary with one `for` loop per symbol class.
   */
  function Tabulate<S(==)>(states: set<S>, alphabet: set<char>, next: (S, char) -> Option<S>): (m: map<(S, char), S>)
    ensures forall k | k in m :: k.0 in states && k.1 in alphabet && next(k.0, k.1) == Some(m[k])
    ensures forall q, c | q in states && c in alphabet && next(q, c).Some? :: (q, c) in m
  {
    var keys := set q, c | q in states && c in alphabet && next(q, c).Some? :: (q, c);
    map k | k in keys :: next(k.0, k.1).value
  }

  /** Every transition stays inside the declared states and alphabet. */
  ghost predicate WellFormed<S>(a: Automaton<S>) {
    && a.start in a.states
    && a.finals <= a.states
    && forall k | k in a.delta :: k.0 in a.states && k.1 in a.alphabet && a.delta[k] in a.states
  }

  /**
   * Why a walk ended. The recognisers only ever report accepted or rejected;
   * the two early stops are told apart here so that lemmas can speak of them.
   */
  datatype Cause = Accept | RejectInvalidSymbol | RejectNoTransition | RejectNotFinal

  datatype Outcome<S> = Outcome(trace: seq<S>, cause: Cause) {

    predicate Accepted() { cause == Accept }

    /** The walk read every symbol (whether or not it then accepted). */
    predicate Consumed() { cause == Accept || cause == RejectNotFinal }
  }

  function Last<S>(t: seq<S>): S
    requires |t| > 0
  {
    t[|t| - 1]
  }

  /**
   * `t` is the sequence of states the automaton passes through when every
   * symbol of `w` is in the alphabet and has a transition: one state more than
   * symbols, each consecutive pair joined by the transition on that symbol.
   */
  ghost predicate IsPath<S>(a: Automaton<S>, t: seq<S>, w: string) {
    && |t| == |w| + 1
    && forall i | 0 <= i < |w| ::
         && w[i] in a.alphabet
         && (t[i], w[i]) in a.delta
         && a.delta[(t[i], w[i])] == t[i + 1]
  }

  lemma PathCons<S>(a: Automaton<S>, q: S, c: char, t: seq<S>, w: string)
    requires c in a.alphabet && (q, c) in a.delta
    requires |t| > 0 && t[0] == a.delta[(q, c)]
    requires IsPath(a, t, w)
    ensures IsPath(a, [q] + t, [c] + w)
  {
    var t', w' := [q] + t, [c] + w;
    forall i | 0 <= i < |w'|
      ensures w'[i] in a.alphabet && (t'[i], w'[i]) in a.delta && a.delta[(t'[i], w'[i])] == t'[i + 1]
    {
      if i > 0 {
        assert w'[i] == w[i - 1] && t'[i] == t[i - 1] && t'[i + 1] == t[i];
      }
    }
  }

  /**
   * The simulation loop of `procesar_cadena`, started from state `q`. The
   * trace begins at `q` and gains one state per consumed symbol; the walk
   * stops early only at a symbol outside the alphabet or at a missing
   * transition, and accepts only after consuming everything in a final state.
   * `WalkTraceIsPath` states what the recorded states are.
   */
  function Walk<S>(a: Automaton<S>, q: S, w: string): (r: Outcome<S>)
    ensures |r.trace| >= 1 && r.trace[0] == q
    ensures |r.trace| <= |w| + 1
    ensures r.Consumed() <==> |r.trace| == |w| + 1
    ensures r.Accepted() <==> r.Consumed() && Last(r.trace) in a.finals
    decreases |w|
  {
    if |w| == 0 then
      Outcome([q], if q in a.finals then Accept else RejectNotFinal)
    else if w[0] !in a.alphabet then
      Outcome([q], RejectInvalidSymbol)
    else if (q, w[0]) !in a.delta then
      Outcome([q], RejectNoTransition)
    else
      var rest := Walk(a, a.delta[(q, w[0])], w[1..]);
      Outcome([q] + rest.trace, rest.cause)
  }

  /**
   * The states a walk records follow the transitions on the symbols it
   * consumed, and an early stop happens exactly at the first symbol that is
   * outside the alphabet or has no transition from the current state.
   */
  lemma {:induction false} WalkTraceIsPath<S>(a: Automaton<S>, q: S, w: string)
    ensures var r := Walk(a, q, w);
      && IsPath(a, r.trace, w[..|r.trace| - 1])
      && (r.cause == RejectInvalidSymbol ==>
            |r.trace| <= |w| && w[|r.trace| - 1] !in a.alphabet)
      && (r.cause == RejectNoTransition ==>
            |r.trace| <= |w| && w[|r.trace| - 1] in a.alphabet && (Last(r.trace), w[|r.trace| - 1]) !in a.delta)
    decreases |w|
  {
    if |w| > 0 && w[0] in a.alphabet && (q, w[0]) in a.delta {
      var rest := Walk(a, a.delta[(q, w[0])], w[1..]);
      WalkTraceIsPath(a, a.delta[(q, w[0])], w[1..]);
      var n := |rest.trace| - 1;
      assert [w[0]] + w[1..][..n] == w[..n + 1];
      PathCons(a, q, w[0], rest.trace, w[1..][..n]);
    }
  }

  /** Runs the whole input from the start state. */
  function Run<S>(a: Automaton<S>, w: string): (r: Outcome<S>)
    ensures |r.trace| >= 1 && r.trace[0] == a.start
    ensures r.Accepted() ==> IsPath(a, r.trace, w) && Last(r.trace) in a.finals
  {
    WalkTraceIsPath(a, a.start, w);
    assert w[..|w|] == w;
    Walk(a, a.start, w)
  }

  const AcceptedLabel: string := "Aceptada"
  const RejectedLabel: string := "Rechazada"

  /** The triple `procesar_cadena` returns: verdict, trace and printed label. */
  datatype Report<S> = Report(accepted: bool, trace: seq<S>, verdict: string)

  function Label(accepted: bool): string {
    if accepted then AcceptedLabel else RejectedLabel
  }

  /** `procesar_cadena` of the three table-only recognisers. */
  function Process<S>(a: Automaton<S>, w: string): (r: Report<S>)
    ensures |r.trace| >= 1 && r.trace[0] == a.start
    ensures r.accepted <==> IsPath(a, r.trace, w) && Last(r.trace) in a.finals
    ensures r.verdict == AcceptedLabel <==> r.accepted
    ensures r.verdict == RejectedLabel <==> !r.accepted
  {
    var o := Run(a, w);
    Report(o.Accepted(), o.trace, Label(o.Accepted()))
  }

  // ---------------------------------------------------------------------
  // Properties of the engine
  // ---------------------------------------------------------------------

  /** One step of the walk: the first symbol is read and the rest walked from the next state. */
  lemma WalkStep<S>(a: Automaton<S>, q: S, w: string)
    requires |w| > 0 && w[0] in a.alphabet && (q, w[0]) in a.delta
    ensures Walk(a, q, w) == var r := Walk(a, a.delta[(q, w[0])], w[1..]); Outcome([q] + r.trace, r.cause)
  {
  }

  /** A walk stops at once on a symbol outside the alphabet or a missing transition. */
  lemma WalkStuck<S>(a: Automaton<S>, q: S, w: string)
    requires |w| > 0 && (w[0] !in a.alphabet || (q, w[0]) !in a.delta)
    ensures Walk(a, q, w).trace == [q]
    ensures Walk(a, q, w).cause == (if w[0] !in a.alphabet then RejectInvalidSymbol else RejectNoTransition)
  {
  }

  /**
   * A family of per-state languages that satisfies the one-step equations of
   * the automaton (the empty string is in the language of exactly the final
   * states; a non-empty string is in the language of `p` exactly when its first
   * symbol is in the alphabet, has a transition from `p`, and the rest is in
   * the language of the target) is what the walk decides.
   */
  lemma {:induction false} WalkDecidesLanguage<S>(a: Automaton<S>, lang: (S, string) -> bool, q: S, w: string)
    requires WellFormed(a) && q in a.states
    requires forall p | p in a.states :: lang(p, []) <==> p in a.finals
    requires forall p, v | p in a.states && |v| > 0 ::
               lang(p, v) <==> v[0] in a.alphabet && (p, v[0]) in a.delta && lang(a.delta[(p, v[0])], v[1..])
    ensures Walk(a, q, w).Accepted() <==> lang(q, w)
    decreases |w|
  {
    if |w| == 0 {
      assert lang(q, []) <==> q in a.finals;
      assert w == [];
    } else {
      assert lang(q, w) <==> w[0] in a.alphabet && (q, w[0]) in a.delta && lang(a.delta[(q, w[0])], w[1..]);
      if w[0] in a.alphabet && (q, w[0]) in a.delta {
        WalkDecidesLanguage(a, lang, a.delta[(q, w[0])], w[1..]);
      }
    }
  }

  /** A path through the automaton is exactly what the walk records. */
  lemma {:induction false} WalkFollowsPath<S>(a: Automaton<S>, t: seq<S>, w: string)
    requires IsPath(a, t, w)
    ensures Walk(a, t[0], w).trace == t
    ensures Walk(a, t[0], w).Consumed()
    decreases |w|
  {
    if |w| > 0 {
      assert w[0] in a.alphabet && (t[0], w[0]) in a.delta && a.delta[(t[0], w[0])] == t[1];
      var t', w' := t[1..], w[1..];
      assert IsPath(a, t', w') by {
        forall i | 0 <= i < |w'|
          ensures w'[i] in a.alphabet && (t'[i], w'[i]) in a.delta && a.delta[(t'[i], w'[i])] == t'[i + 1]
        {
          assert w'[i] == w[i + 1] && t'[i] == t[i + 1] && t'[i + 1] == t[i + 2];
        }
      }
      WalkFollowsPath(a, t', w');
      assert t == [t[0]] + t';
    }
  }

  /**
   * Determinism: from one state, a string has at most one path, so the
   * trace of a run is determined by the automaton and the input.
   */
  lemma PathUnique<S>(a: Automaton<S>, t1: seq<S>, t2: seq<S>, w: string)
    requires IsPath(a, t1, w) && IsPath(a, t2, w)
    requires t1[0] == t2[0]
    ensures t1 == t2
  {
    WalkFollowsPath(a, t1, w);
    WalkFollowsPath(a, t2, w);
  }

  /**
   * The textbook acceptance condition: a string is accepted exactly when
   * there is a path for it from the start state ending in a final state.
   */
  lemma AcceptsIffFinalPath<S>(a: Automaton<S>, w: string)
    ensures Run(a, w).Accepted() <==>
              exists t :: IsPath(a, t, w) && t[0] == a.start && Last(t) in a.finals
  {
    if t :| IsPath(a, t, w) && t[0] == a.start && Last(t) in a.finals {
      WalkFollowsPath(a, t, w);
    }
  }

  /** Empty input leaves the trace at the start state and accepts iff it is final. */
  lemma EmptyInput<S>(a: Automaton<S>)
    ensures Run(a, []).trace == [a.start]
    ensures Run(a, []).Accepted() <==> a.start in a.finals
  {
  }

  /**
   * A symbol outside the alphabet always rejects, and the trace stops at or
   * before it: at most one state per symbol read before it, plus the start.
   */
  lemma InvalidSymbolRejects<S>(a: Automaton<S>, q: S, w: string, i: nat)
    requires i < |w| && w[i] !in a.alphabet
    ensures !Walk(a, q, w).Accepted()
    ensures |Walk(a, q, w).trace| <= i + 1
  {
    WalkTraceIsPath(a, q, w);
  }

  /**
   * The first symbol outside the alphabet is where the walk stops when
   * everything before it has a transition: the trace then has exactly one
   * state per symbol consumed plus the start, and the cause is the invalid
   * symbol.
   */
  lemma InvalidSymbolStopsThere<S>(a: Automaton<S>, t: seq<S>, w: string, c: char, rest: string)
    requires IsPath(a, t, w)
    requires c !in a.alphabet
    ensures Walk(a, t[0], w + [c] + rest).trace == t
    ensures Walk(a, t[0], w + [c] + rest).cause == RejectInvalidSymbol
  {
    var x := w + [c] + rest;
    var r := Walk(a, t[0], x);
    var n := |r.trace| - 1;
    WalkTraceIsPath(a, t[0], x);
    assert x[..|w|] == w;
    InvalidSymbolRejects(a, t[0], x, |w|);
    assert x[..n] == w[..n];
    if n < |w| {
      // The walk would have stopped inside a prefix that has a full path.
      assert w[n] in a.alphabet && (t[n], w[n]) in a.delta;
      PrefixPath(a, t, w, n);
      PathUnique(a, r.trace, t[..n + 1], w[..n]);
      assert false;
    }
    assert IsPath(a, r.trace, w);
    PathUnique(a, r.trace, t, w);
  }

  lemma PrefixPath<S>(a: Automaton<S>, t: seq<S>, w: string, n: nat)
    requires IsPath(a, t, w) && n <= |w|
    ensures IsPath(a, t[..n + 1], w[..n])
  {
    var t', w' := t[..n + 1], w[..n];
    forall i | 0 <= i < |w'|
      ensures w'[i] in a.alphabet && (t'[i], w'[i]) in a.delta && a.delta[(t'[i], w'[i])] == t'[i + 1]
    {
      assert w'[i] == w[i] && t'[i] == t[i] && t'[i + 1] == t[i + 1];
    }
  }

  /** A state with no outgoing transition rejects any further symbol and stays put. */
  lemma DeadStateRejects<S>(a: Automaton<S>, q: S, w: string)
    requires forall c :: (q, c) !in a.delta
    requires |w| > 0
    ensures Walk(a, q, w).trace == [q]
    ensures !Walk(a, q, w).Accepted()
  {
  }

  /** In a well-formed automaton every state of a trace is a declared state. */
  lemma TraceInStates<S>(a: Automaton<S>, q: S, w: string)
    requires WellFormed(a) && q in a.states
    ensures forall s | s in Walk(a, q, w).trace :: s in a.states
  {
    var r := Walk(a, q, w);
    var n := |r.trace| - 1;
    var p := w[..n];
    WalkTraceIsPath(a, q, w);
    forall j | 0 <= j < |r.trace|
      ensures r.trace[j] in a.states
    {
      if j > 0 {
        assert (r.trace[j - 1], p[j - 1]) in a.delta && a.delta[(r.trace[j - 1], p[j - 1])] == r.trace[j];
      }
    }
  }

  /**
   * When the start state is not final and every transition into a final
   * state reads the symbol `c`, every accepted string is non-empty and ends
   * with `c`.
   */
  lemma AcceptedEndsWith<S>(a: Automaton<S>, w: string, c: char)
    requires a.start !in a.finals
    requires forall k | k in a.delta && a.delta[k] in a.finals :: k.1 == c
    ensures Run(a, w).Accepted() ==> |w| > 0 && w[|w| - 1] == c
  {
    var t := Run(a, w).trace;
    if Run(a, w).Accepted() {
      var n := |w|;
      assert n > 0;
      assert (t[n - 1], w[n - 1]) in a.delta && a.delta[(t[n - 1], w[n - 1])] == t[n];
    }
  }
}

=== FILE: email.dfy ===
/**
 * The institutional e-mail validator. It works in two phases: the automaton
 * reads the user part (a lowercase letter, then lowercase letters or digits)
 * and the '@', ending in the final state q2; then the domain after the '@' is
 * compared with the literal "uptc.edu.co". The automaton never reads the
 * domain.
 */
module Email {
  import opened Chars
  import opened Dfa
  import opened States
  import opened Strings

  const Alphabet: set<char> := Lowers + Digits + {'@', '.'}

  /**
   * The transition function as the constructor's comments write it:
   * q0 --a..z--> q1, q1 --0..9--> q1, q1 --a..z--> q1, q1 --@--> q2.
   * '.' is in the alphabet but has no transition.
   */
  function Next(q: State, c: char): Option<State> {
    match q
    case Q0 => if IsLower(c) then Some(Q1) else None
    case Q1 => if IsDigit(c) || IsLower(c) then Some(Q1) else if c == '@' then Some(Q2) else None
    case _ => None
  }

  const Table: Automaton<State> := Automaton(
    {Q0, Q1, Q2},
    Alphabet,
    Tabulate({Q0, Q1, Q2}, Alphabet, Next),
    Q0,
    {Q2})

  const Domain: string := "uptc.edu.co"

  function Rejected(trace: seq<State>): Report<State> {
    Report(false, trace, RejectedLabel)
  }

  /**
   * `procesar_cadena` of the validator. Empty input, an input without
   * exactly one '@', an empty user part, or a user part not starting with a
   * lowercase letter are rejected with the trace [q0]. Otherwise the user part
   * is walked through the table; if the walk stops early the input is rejected
   * with the trace so far. Then the '@' transition is taken and the input is
   * accepted exactly when the domain is "uptc.edu.co".
   */
  function Validate(w: string): (r: Report<State>)
    ensures |r.trace| >= 1 && r.trace[0] == Q0
    ensures r.verdict == AcceptedLabel <==> r.accepted
    ensures r.verdict == RejectedLabel <==> !r.accepted
    ensures r.accepted ==> Last(r.trace) in Table.finals
  {
    if |w| == 0 then
      Rejected([Q0])
    else if '@' !in w then
      Rejected([Table.start])
    else
      var parts := Split(w, '@');
      if |parts| != 2 then
        Rejected([Table.start])
      else
        var user, domain := parts[0], parts[1];
        if |user| == 0 then
          Rejected([Table.start])
        else if !IsLower(user[0]) then
          Rejected([Table.start])
        else
          var walk := Walk(Table, Table.start, user);
          if !walk.Consumed() then
            Rejected(walk.trace)
          else if (Last(walk.trace), '@') !in Table.delta then
            Rejected(walk.trace)
          else
            var trace := walk.trace + [Table.delta[(Last(walk.trace), '@')]];
            if domain == Domain then Report(true, trace, AcceptedLabel) else Rejected(trace)
  }

  /** The user part the pattern [a-z][a-z0-9]* allows. */
  predicate ValidUser(u: string) {
    |u| > 0 && IsLower(u[0]) && AllLowerOrDigit(u)
  }

  /** The pattern [a-z][a-z0-9]*@uptc.edu.co. */
  predicate IsInstitutionalEmail(w: string) {
    var n := |w| - |Domain| - 1;
    n >= 0 && w[n..] == "@" + Domain && ValidUser(w[..n])
  }

  /**
   * The table's keys and targets, row by row: q0 moves to q1 on a..z, q1 stays
   * on a..z and 0..9 and moves to q2 on '@', and nothing else. '.' belongs to
   * the alphabet but has no transition.
   */
  lemma Transitions(q: State, c: char)
    ensures (q, c) in Table.delta <==>
              (q == Q0 && IsLower(c)) || (q == Q1 && (IsLower(c) || IsDigit(c) || c == '@'))
    ensures (Q0, c) in Table.delta ==> Table.delta[(Q0, c)] == Q1
    ensures (Q1, c) in Table.delta ==> Table.delta[(Q1, c)] == (if c == '@' then Q2 else Q1)
    ensures '.' in Table.alphabet && (Q1, '.') !in Table.delta
  {
  }

  /** The table holds exactly the transitions of `Next`. */
  lemma Tabulated(q: State, c: char)
    ensures (q, c) in Table.delta <==> q in Table.states && c in Alphabet && Next(q, c).Some?
    ensures (q, c) in Table.delta ==> Table.delta[(q, c)] == Next(q, c).value
  {
  }

  lemma WellFormedTable()
    ensures WellFormed(Table)
  {
  }

  /**
   * From q1, a user part without '@' is read to the end exactly when it holds
   * only lowercase letters and digits; the walk then stays in q1.
   */
  lemma {:induction false} UserWalk(v: string)
    requires '@' !in v
    ensures Walk(Table, Q1, v).Consumed() <==> AllLowerOrDigit(v)
    ensures AllLowerOrDigit(v) ==> Walk(Table, Q1, v).trace == seq(|v| + 1, i => Q1)
    decreases |v|
  {
    if |v| > 0 {
      var c, rest := v[0], v[1..];
      Tabulated(Q1, c);
      assert '@' !in rest by {
        forall i | 0 <= i < |rest| ensures rest[i] != '@' {
          assert rest[i] == v[i + 1];
        }
      }
      assert AllLowerOrDigit(v) <==> (IsLower(c) || IsDigit(c)) && AllLowerOrDigit(rest) by {
        if (IsLower(c) || IsDigit(c)) && AllLowerOrDigit(rest) {
          forall i | 0 <= i < |v| ensures IsLower(v[i]) || IsDigit(v[i]) {
            if i > 0 { assert v[i] == rest[i - 1]; }
          }
        }
      }
      if IsLower(c) || IsDigit(c) {
        WalkStep(Table, Q1, v);
        UserWalk(rest);
        assert seq(|v| + 1, i => Q1) == [Q1] + seq(|rest| + 1, i => Q1);
      } else {
        WalkStuck(Table, Q1, v);
      }
    }
  }

  /** From q0, a valid user part is read to the end, leaving q0 then q1 for every symbol. */
  lemma UserTrace(u: string)
    requires ValidUser(u)
    ensures Walk(Table, Q0, u).Consumed()
    ensures Walk(Table, Q0, u).trace == [Q0] + seq(|u|, i => Q1)
  {
    Tabulated(Q0, u[0]);
    WalkStep(Table, Q0, u);
    var rest := u[1..];
    assert AllLowerOrDigit(rest) by {
      forall i | 0 <= i < |rest| ensures IsLower(rest[i]) || IsDigit(rest[i]) {
        assert rest[i] == u[i + 1];
      }
    }
    UserWalk(rest);
    assert seq(|u|, i => Q1) == seq(|rest| + 1, i => Q1);
  }

  /** From q0, a user part that breaks the pattern is not read to the end. */
  lemma BadUserStops(u: string)
    requires '@' !in u && |u| > 0 && IsLower(u[0]) && !AllLowerOrDigit(u)
    ensures !Walk(Table, Q0, u).Consumed()
  {
    Tabulated(Q0, u[0]);
    WalkStep(Table, Q0, u);
    var rest := u[1..];
    assert '@' !in rest by {
      forall i | 0 <= i < |rest| ensures rest[i] != '@' {
        assert rest[i] == u[i + 1];
      }
    }
    assert !AllLowerOrDigit(rest) by {
      var i :| 0 <= i < |u| && !(IsLower(u[i]) || IsDigit(u[i]));
      assert i > 0 && rest[i - 1] == u[i];
    }
    UserWalk(rest);
  }

  /** An input with exactly one '@' splits into the user part and the domain around it. */
  lemma SplitOnce(u: string, d: string)
    requires '@' !in u && '@' !in d
    ensures Split(u + "@" + d, '@') == [u, d]
    ensures '@' in u + "@" + d
  {
    SplitAfterPrefix(u, '@', d);
    SplitFree(d, '@');
    assert (u + "@" + d)[|u|] == '@';
  }

  // ---------------------------------------------------------------------
  // Properties of the validator
  // ---------------------------------------------------------------------

  lemma EmptyRejected()
    ensures Validate("") == Report(false, [Q0], RejectedLabel)
  {
  }

  /** No '@', or two or more, rejects with the trace [q0]. */
  lemma AtCountRejects(w: string)
    requires Count(w, '@') != 1
    ensures Validate(w) == Report(false, [Q0], RejectedLabel)
  {
  }

  /** An empty user part, or one not starting with a lowercase letter, rejects with [q0]. */
  lemma BadUserStartRejects(u: string, d: string)
    requires '@' !in u && '@' !in d
    requires |u| == 0 || !IsLower(u[0])
    ensures Validate(u + "@" + d) == Report(false, [Q0], RejectedLabel)
  {
    SplitOnce(u, d);
  }

  /** '.' has no transition, so a '.' in the user part rejects. */
  lemma DotInUserRejects(u: string, d: string)
    requires '@' !in u && '@' !in d
    requires '.' in u
    ensures !Validate(u + "@" + d).accepted
  {
    SplitOnce(u, d);
    if |u| > 0 && IsLower(u[0]) {
      var i :| 0 <= i < |u| && u[i] == '.';
      assert !(IsLower(u[i]) || IsDigit(u[i]));
      BadUserStops(u);
    }
  }

  /**
   * A valid user part is always followed by the '@' step, so the trace is
   * q0, then q1 once per user symbol, then q2; the domain alone decides.
   */
  lemma ValidUserTrace(u: string, d: string)
    requires ValidUser(u) && '@' !in d
    ensures Validate(u + "@" + d).trace == [Q0] + seq(|u|, i => Q1) + [Q2]
    ensures Validate(u + "@" + d).accepted <==> d == Domain
  {
    assert '@' !in u by {
      forall i | 0 <= i < |u| ensures u[i] != '@' {
        assert IsLower(u[i]) || IsDigit(u[i]);
      }
    }
    SplitOnce(u, d);
    UserTrace(u);
    Tabulated(Q1, '@');
    var t := Walk(Table, Q0, u).trace;
    assert Last(t) == Q1;
  }

  /**
   * The validator accepts exactly the addresses u@uptc.edu.co whose user
   * part u matches [a-z][a-z0-9]*.
   */
  lemma AcceptsIffInstitutionalEmail(w: string)
    ensures Validate(w).accepted <==> IsInstitutionalEmail(w)
  {
    var n := |w| - |Domain| - 1;
    if IsInstitutionalEmail(w) {
      var u := w[..n];
      assert w == u + "@" + Domain;
      ValidUserTrace(u, Domain);
    } else if Validate(w).accepted {
      var parts := Split(w, '@');
      assert |w| > 0 && '@' in w && |parts| == 2;
      var u, d := parts[0], parts[1];
      assert parts[1..] == [d];
      assert Join(parts, '@') == u + ['@'] + Join([d], '@');
      assert w == u + "@" + d;
      assert d == Domain;
      if !AllLowerOrDigit(u) {
        BadUserStops(u);
      }
    }
  }

  const TestAccepted: seq<string> := ["juan3@uptc.edu.co", "maria@uptc.edu.co", "abc123@uptc.edu.co"]

  lemma TestListAccepted(w: string)
    requires w in TestAccepted
    ensures Validate(w).accepted
  {
    var u := if w == "juan3@uptc.edu.co" then "juan3" else if w == "maria@uptc.edu.co" then "maria" else "abc123";
    assert w == u + "@" + Domain;
    assert AllLowerOrDigit(u) by {
      forall i | 0 <= i < |u| ensures IsLower(u[i]) || IsDigit(u[i]) {
        assert u[i] in {'j', 'u', 'a', 'n', '3', 'm', 'r', 'i', 'b', 'c', '1', '2'};
      }
    }
    ValidUserTrace(u, Domain);
  }

  /** "123juan@..." starts with a digit and "MARIA@..." with an uppercase letter. */
  lemma TestListBadStart(w: string)
    requires w in ["123juan@uptc.edu.co", "MARIA@uptc.edu.co"]
    ensures Validate(w) == Report(false, [Q0], RejectedLabel)
  {
    var n := |w| - |Domain| - 1;
    assert w == w[..n] + "@" + Domain;
    BadUserStartRejects(w[..n], Domain);
  }

  /** "juan@uptc.com" is rejected although its trace ends in the final state q2. */
  lemma WrongDomainRejected(w: string)
    requires w == "juan@uptc.com"
    ensures Validate(w) == Report(false, [Q0, Q1, Q1, Q1, Q1, Q2], RejectedLabel)
    ensures Q2 in Table.finals
  {
    var u, d := w[..4], w[5..];
    assert w == u + "@" + d;
    ValidUserTrace(u, d);
    TraceOfFourSymbols();
  }

  lemma TraceOfFourSymbols()
    ensures [Q0] + seq(4, i => Q1) + [Q2] == [Q0, Q1, Q1, Q1, Q1, Q2]
  {
    var t := [Q0] + seq(4, i => Q1) + [Q2];
    assert |t| == 6 && t[0] == Q0 && t[1] == Q1 && t[2] == Q1 && t[3] == Q1 && t[4] == Q1 && t[5] == Q2;
  }
}

=== FILE: identifier.dfy ===
/**
 * The identifier recogniser: one uppercase letter, then any number of
 * lowercase letters, then one or more digits, over the alphabet of ASCII
 * letters and digits. States q0..q2, final state q2.
 */
module Identifier {
  import opened Chars
  import opened Dfa
  import opened States

  const Alphabet: set<char> := Uppers + Lowers + Digits

  /**
   * The transition function as the constructor's comments write it:
   * q0 --A..Z--> q1, q1 --a..z--> q1, q1 --0..9--> q2, q2 --0..9--> q2.
   */
  function Next(q: State, c: char): Option<State> {
    match q
    case Q0 => if IsUpper(c) then Some(Q1) else None
    case Q1 => if IsLower(c) then Some(Q1) else if IsDigit(c) then Some(Q2) else None
    case Q2 => if IsDigit(c) then Some(Q2) else None
    case _ => None
  }

  const Table: Automaton<State> := Automaton(
    {Q0, Q1, Q2},
    Alphabet,
    Tabulate({Q0, Q1, Q2}, Alphabet, Next),
    Q0,
    {Q2})

  /** Zero or more lowercase letters followed by one or more digits. */
  ghost predicate LowersThenDigits(w: string) {
    exists k :: 0 <= k < |w| && AllLower(w[..k]) && AllDigits(w[k..])
  }

  /** The pattern [A-Z][a-z]*[0-9]+. */
  ghost predicate InLanguage(w: string) {
    |w| >= 1 && IsUpper(w[0]) && LowersThenDigits(w[1..])
  }

  ghost predicate AcceptedFrom(q: State, w: string) {
    match q
    case Q0 => InLanguage(w)
    case Q1 => LowersThenDigits(w)
    case Q2 => AllDigits(w)
    case _ => false
  }

  /**
   * The table's keys and targets, row by row: q0 moves to q1 on A..Z, q1 stays
   * on a..z and moves to q2 on 0..9, q2 stays on 0..9, and nothing else.
   */
  lemma Transitions(q: State, c: char)
    ensures (q, c) in Table.delta <==>
              (q == Q0 && IsUpper(c)) || (q == Q1 && (IsLower(c) || IsDigit(c))) || (q == Q2 && IsDigit(c))
    ensures (Q0, c) in Table.delta ==> Table.delta[(Q0, c)] == Q1
    ensures (Q1, c) in Table.delta ==> Table.delta[(Q1, c)] == (if IsDigit(c) then Q2 else Q1)
    ensures (Q2, c) in Table.delta ==> Table.delta[(Q2, c)] == Q2
  {
  }

  /** The table holds exactly the transitions of `Next`. */
  lemma Tabulated(q: State, c: char)
    ensures (q, c) in Table.delta <==> q in Table.states && c in Alphabet && Next(q, c).Some?
    ensures (q, c) in Table.delta ==> Table.delta[(q, c)] == Next(q, c).value
  {
  }

  lemma WellFormedTable()
    ensures WellFormed(Table)
  {
  }

  lemma LowersThenDigitsStep(w: string)
    requires |w| > 0
    ensures LowersThenDigits(w) <==>
              (IsLower(w[0]) && LowersThenDigits(w[1..])) || (IsDigit(w[0]) && AllDigits(w[1..]))
  {
    var v := w[1..];
    if LowersThenDigits(w) {
      var k :| 0 <= k < |w| && AllLower(w[..k]) && AllDigits(w[k..]);
      if k == 0 {
        assert w[k..][0] == w[0];
        assert forall i | 0 <= i < |v| :: v[i] == w[k..][i + 1];
      } else {
        assert w[..k][0] == w[0];
        assert v[..k - 1] == w[1..k] && v[k - 1..] == w[k..];
        var p, pw := v[..k - 1], w[..k];
        forall i | 0 <= i < |p| ensures IsLower(p[i]) {
          assert p[i] == pw[i + 1];
        }
      }
    }
    if IsLower(w[0]) && LowersThenDigits(v) {
      var k :| 0 <= k < |v| && AllLower(v[..k]) && AllDigits(v[k..]);
      assert w[k + 1..] == v[k..];
      var p, pv := w[..k + 1], v[..k];
      forall i | 0 <= i < |p| ensures IsLower(p[i]) {
        if i > 0 { assert p[i] == pv[i - 1]; }
      }
    }
    if IsDigit(w[0]) && AllDigits(v) {
      assert w[0..] == w;
      assert forall i | 1 <= i < |w| :: w[i] == v[i - 1];
      assert AllLower(w[..0]);
    }
  }

  lemma AllDigitsStep(w: string)
    requires |w| > 0
    ensures AllDigits(w) <==> IsDigit(w[0]) && AllDigits(w[1..])
  {
    if IsDigit(w[0]) && AllDigits(w[1..]) {
      assert forall i | 1 <= i < |w| :: w[i] == w[1..][i - 1];
    }
  }

  lemma LanguageStep(q: State, w: string)
    requires q in Table.states && |w| > 0
    ensures AcceptedFrom(q, w) <==>
              w[0] in Table.alphabet && (q, w[0]) in Table.delta && AcceptedFrom(Table.delta[(q, w[0])], w[1..])
  {
    Tabulated(q, w[0]);
    LowersThenDigitsStep(w);
    AllDigitsStep(w);
  }

  /** The table accepts exactly the strings of the form [A-Z][a-z]*[0-9]+. */
  lemma AcceptsIffInLanguage(w: string)
    ensures Run(Table, w).Accepted() <==> InLanguage(w)
  {
    WellFormedTable();
    forall p, v | p in Table.states && |v| > 0
      ensures AcceptedFrom(p, v) <==>
                v[0] in Table.alphabet && (p, v[0]) in Table.delta && AcceptedFrom(Table.delta[(p, v[0])], v[1..])
    {
      LanguageStep(p, v);
    }
    WalkDecidesLanguage(Table, AcceptedFrom, Q0, w);
  }

  /**
   * A character that is neither an ASCII letter nor a digit rejects at once:
   * the trace holds exactly the states reached before it.
   */
  lemma NonAlphanumericRejects(w: string, i: nat)
    requires i < |w| && !IsUpper(w[i]) && !IsLower(w[i]) && !IsDigit(w[i])
    ensures !Run(Table, w).Accepted()
    ensures |Run(Table, w).trace| <= i + 1
  {
    InvalidSymbolRejects(Table, Q0, w, i);
  }

  /** q2 loops only on digits, so a letter after a digit is never accepted. */
  lemma LetterAfterDigitRejects(w: string, i: nat)
    requires i + 1 < |w| && IsDigit(w[i]) && (IsUpper(w[i + 1]) || IsLower(w[i + 1]))
    ensures !Run(Table, w).Accepted()
  {
    AcceptsIffInLanguage(w);
  }

  /** A string that does not start with an uppercase letter stops at q0. */
  lemma NoUppercaseStartStaysAtQ0(w: string)
    requires |w| > 0 && !IsUpper(w[0])
    ensures Run(Table, w).trace == [Q0]
    ensures !Run(Table, w).Accepted()
  {
    Tabulated(Q0, w[0]);
    WalkStuck(Table, Q0, w);
  }

  /** An uppercase letter after the first one finds no transition from q1. */
  lemma SecondUppercaseRejects(w: string)
    requires |w| > 1 && IsUpper(w[0]) && IsUpper(w[1])
    ensures Run(Table, w) == Outcome([Q0, Q1], RejectNoTransition)
  {
    Tabulated(Q0, w[0]);
    Tabulated(Q1, w[1]);
    assert w[0] in Table.alphabet && Table.delta[(Q0, w[0])] == Q1;
    WalkStep(Table, Q0, w);
    var v := w[1..];
    assert v[0] == w[1];
    WalkStuck(Table, Q1, v);
    var r := Walk(Table, Q1, v);
    assert r == Outcome([Q1], RejectNoTransition);
    assert Run(Table, w) == Outcome([Q0] + r.trace, r.cause);
    assert [Q0] + [Q1] == [Q0, Q1];
  }

  lemma EmptyRejected()
    ensures Run(Table, "") == Outcome([Q0], RejectNotFinal)
  {
  }

  const TestAccepted: seq<string> := ["A123", "Sogamoso2025", "Uptc9", "X0", "Z99"]
  const TestRejected: seq<string> := ["1234", "soga2025", "UPTC", "aa99", "AAT"]

  /** The accepted strings of the recogniser's test list. */
  lemma TestListAccepted(w: string)
    requires w in TestAccepted
    ensures Run(Table, w).Accepted()
  {
    var v := w[1..];
    var k := if w == "Sogamoso2025" then 7 else if w == "Uptc9" then 3 else 0;
    assert AllLower(v[..k]) && AllDigits(v[k..]);
    AcceptsIffInLanguage(w);
  }

  /**
   * The rejected strings of the test list: those not starting with an
   * uppercase letter stop at q0; "UPTC" and "AAT" stop at q1.
   */
  lemma TestListRejected(w: string)
    requires w in TestRejected
    ensures !Run(Table, w).Accepted()
    ensures w in ["1234", "soga2025", "aa99"] ==> Run(Table, w).trace == [Q0]
    ensures w in ["UPTC", "AAT"] ==> Run(Table, w).trace == [Q0, Q1]
  {
    if w in ["UPTC", "AAT"] {
      SecondUppercaseRejects(w);
    } else {
      NoUppercaseStartStaysAtQ0(w);
    }
  }
}

=== FILE: states.dfy ===
/**
 * The state names the recognisers use, `q0` to `q9`. Each automaton
 * declares which of them it owns in its `states` set.
 */
module States {

  datatype State = Q0 | Q1 | Q2 | Q3 | Q4 | Q5 | Q6 | Q7 | Q8 | Q9
}

=== FILE: strings.dfy ===
/**
 * Splitting a string on a one-character separator, as Python's
 * `str.split(sep)` does: n separators give n + 1 parts, possibly empty.
 */
module Strings {

  /** How many times `c` occurs in `s`. */
  function Count(s: string, c: char): (n: nat)
    ensures n == 0 <==> c !in s
    ensures n <= |s|
    decreases |s|
  {
    if |s| == 0 then 0
    else (if s[0] == c then 1 else 0) + Count(s[1..], c)
  }

  /** The parts glued back together with the separator between them. */
  function Join(parts: seq<string>, sep: char): string
    requires |parts| > 0
    decreases |parts|
  {
    if |parts| == 1 then parts[0] else parts[0] + [sep] + Join(parts[1..], sep)
  }

  /**
   * `s.split(sep)`: the maximal separator-free pieces of `s`, in order.
   * Gluing them back gives `s`, and there is one more piece than there are
   * separators.
   */
  function Split(s: string, sep: char): (parts: seq<string>)
    ensures |parts| == Count(s, sep) + 1
    ensures forall i | 0 <= i < |parts| :: sep !in parts[i]
    ensures Join(parts, sep) == s
    decreases |s|
  {
    if |s| == 0 then
      [""]
    else
      var rest := Split(s[1..], sep);
      if s[0] == sep then
        assert ([""] + rest)[1..] == rest;
        [""] + rest
      else
        var parts := [[s[0]] + rest[0]] + rest[1..];
        assert parts[1..] == rest[1..];
        assert sep !in parts[0] by {
          forall i | 0 <= i < |parts[0]| ensures parts[0][i] != sep {
            if i > 0 { assert parts[0][i] == rest[0][i - 1]; }
          }
        }
        assert s == [s[0]] + s[1..];
        parts
  }

  lemma {:induction false} SplitFree(u: string, sep: char)
    requires sep !in u
    ensures Split(u, sep) == [u]
    decreases |u|
  {
    if |u| > 0 {
      assert sep !in u[1..] by {
        forall i | 0 <= i < |u[1..]| ensures u[1..][i] != sep {
          assert u[1..][i] == u[i + 1];
        }
      }
      SplitFree(u[1..], sep);
      assert [u[0]] + u[1..] == u;
    }
  }

  /** Splitting after a separator-free prefix peels that prefix off as the first part. */
  lemma {:induction false} SplitAfterPrefix(u: string, sep: char, v: string)
    requires sep !in u
    ensures Split(u + [sep] + v, sep) == [u] + Split(v, sep)
    decreases |u|
  {
    var s := u + [sep] + v;
    if |u| == 0 {
      assert s[1..] == v;
    } else {
      assert s[1..] == u[1..] + [sep] + v;
      assert sep !in u[1..] by {
        forall i | 0 <= i < |u[1..]| ensures u[1..][i] != sep {
          assert u[1..][i] == u[i + 1];
        }
      }
      SplitAfterPrefix(u[1..], sep, v);
      assert [u[0]] + u[1..] == u;
    }
  }

  /** Splitting undoes joining, when no part holds the separator. */
  lemma {:induction false} SplitJoin(parts: seq<string>, sep: char)
    requires |parts| > 0
    requires forall i | 0 <= i < |parts| :: sep !in parts[i]
    ensures Split(Join(parts, sep), sep) == parts
    decreases |parts|
  {
    if |parts| == 1 {
      SplitFree(parts[0], sep);
    } else {
      var tail := parts[1..];
      assert forall i | 0 <= i < |tail| :: sep !in tail[i] by {
        forall i | 0 <= i < |tail| ensures sep !in tail[i] {
          assert tail[i] == parts[i + 1];
        }
      }
      SplitJoin(tail, sep);
      SplitAfterPrefix(parts[0], sep, Join(tail, sep));
      assert parts == [parts[0]] + tail;
    }
  }
}

=== FILE: two_symbol.dfy ===
/**
 * The recogniser over {a, b} with states q0..q4 and final state q4.
 * q3 is a dead end reached by "bb"; q4 is entered only on 'a'.
 */
module TwoSymbol {
  import opened Dfa
  import opened States

  const Table: Automaton<State> := Automaton(
    {Q0, Q1, Q2, Q3, Q4},
    {'a', 'b'},
    map[
      (Q0, 'a') := Q1, (Q0, 'b') := Q2,
      (Q1, 'a') := Q4, (Q1, 'b') := Q2,
      (Q2, 'a') := Q4, (Q2, 'b') := Q3,
      (Q4, 'a') := Q4, (Q4, 'b') := Q2],
    Q0,
    {Q4})

  predicate OverAB(w: string) { forall i | 0 <= i < |w| :: w[i] == 'a' || w[i] == 'b' }

  /** No two consecutive 'b's anywhere in `w`. */
  predicate NoDoubleB(w: string) { forall i | 0 <= i < |w| - 1 :: !(w[i] == 'b' && w[i + 1] == 'b') }

  /** The language the table recognises: at least two symbols, ending in 'a', no "bb". */
  predicate InLanguage(w: string) {
    OverAB(w) && NoDoubleB(w) && |w| >= 2 && w[|w| - 1] == 'a'
  }

  /** What remains to be read from each state for the string to be accepted. */
  ghost predicate AcceptedFrom(q: State, w: string) {
    match q
    case Q0 => InLanguage(w)
    case Q1 => OverAB(w) && NoDoubleB(w) && |w| >= 1 && w[|w| - 1] == 'a'
    case Q2 => OverAB(w) && NoDoubleB(w) && |w| >= 1 && w[0] == 'a' && w[|w| - 1] == 'a'
    case Q4 => OverAB(w) && NoDoubleB(w) && (|w| == 0 || w[|w| - 1] == 'a')
    case _ => false
  }

  lemma WellFormedTable()
    ensures WellFormed(Table)
  {
  }

  /** How the three string predicates split at the first symbol. */
  lemma ConsFacts(w: string)
    requires |w| > 0
    ensures OverAB(w) <==> (w[0] == 'a' || w[0] == 'b') && OverAB(w[1..])
    ensures NoDoubleB(w) <==> NoDoubleB(w[1..]) && !(|w| > 1 && w[0] == 'b' && w[1] == 'b')
    ensures |w| > 1 ==> w[|w| - 1] == w[1..][|w| - 2]
  {
    var v := w[1..];
    if OverAB(v) && (w[0] == 'a' || w[0] == 'b') {
      forall i | 0 <= i < |w| ensures w[i] == 'a' || w[i] == 'b' {
        if i > 0 { assert w[i] == v[i - 1]; }
      }
    }
    if NoDoubleB(v) && !(|w| > 1 && w[0] == 'b' && w[1] == 'b') {
      forall i | 0 <= i < |w| - 1 ensures !(w[i] == 'b' && w[i + 1] == 'b') {
        if i > 0 { assert w[i] == v[i - 1] && w[i + 1] == v[i]; }
      }
    }
    if NoDoubleB(w) {
      forall i | 0 <= i < |v| - 1 ensures !(v[i] == 'b' && v[i + 1] == 'b') {
        assert v[i] == w[i + 1] && v[i + 1] == w[i + 2];
      }
    }
  }

  /** The per-state languages agree with the table one symbol at a time. */
  lemma LanguageStep(q: State, w: string)
    requires q in Table.states && |w| > 0
    ensures AcceptedFrom(q, w) <==>
              w[0] in Table.alphabet && (q, w[0]) in Table.delta && AcceptedFrom(Table.delta[(q, w[0])], w[1..])
  {
    ConsFacts(w);
  }

  /**
   * The table accepts exactly the strings over {a, b} that have at least
   * two symbols, end in 'a' and never contain "bb".
   */
  lemma AcceptsIffInLanguage(w: string)
    ensures Run(Table, w).Accepted() <==> InLanguage(w)
  {
    WellFormedTable();
    forall p, v | p in Table.states && |v| > 0
      ensures AcceptedFrom(p, v) <==>
                v[0] in Table.alphabet && (p, v[0]) in Table.delta && AcceptedFrom(Table.delta[(p, v[0])], v[1..])
    {
      LanguageStep(p, v);
    }
    WalkDecidesLanguage(Table, AcceptedFrom, Q0, w);
  }

  /** q4 is entered only on 'a' and q0 is not final, so accepted strings end in 'a'. */
  lemma AcceptedEndsWithA(w: string)
    ensures Run(Table, w).Accepted() ==> |w| > 0 && w[|w| - 1] == 'a'
  {
    AcceptedEndsWith(Table, w, 'a');
  }

  /** q3 has no outgoing transition: once reached, any further symbol rejects. */
  lemma Q3IsDead(w: string)
    requires |w| > 0
    ensures Walk(Table, Q3, w).trace == [Q3]
    ensures !Walk(Table, Q3, w).Accepted()
  {
    DeadStateRejects(Table, Q3, w);
  }

  /** Every state a run visits is one of q0..q4. */
  lemma TraceStaysInStates(w: string)
    ensures forall s | s in Run(Table, w).trace :: s in {Q0, Q1, Q2, Q3, Q4}
  {
    WellFormedTable();
    TraceInStates(Table, Q0, w);
  }

  /** The two shortest accepted runs, with their traces. */
  lemma AcceptedExamples()
    ensures Run(Table, "aa") == Outcome([Q0, Q1, Q4], Accept)
    ensures Run(Table, "ba") == Outcome([Q0, Q2, Q4], Accept)
  {
  }

  /** Traces of strings from the recogniser's own test list. */
  lemma TraceOfAbba()
    ensures Run(Table, "abba") == Outcome([Q0, Q1, Q2, Q3], RejectNoTransition)
  {
  }

  lemma TraceOfAbbabba()
    ensures Run(Table, "abbabba") == Outcome([Q0, Q1, Q2, Q3], RejectNoTransition)
  {
  }

  lemma TraceOfBbbbbbb()
    ensures Run(Table, "bbbbbbb") == Outcome([Q0, Q2, Q3], RejectNoTransition)
  {
  }

  lemma TraceOfAbabba()
    ensures Run(Table, "ababba") == Outcome([Q0, Q1, Q2, Q4, Q2, Q3], RejectNoTransition)
  {
  }

  lemma TraceOfAaaaaaa()
    ensures Run(Table, "aaaaaaa") == Outcome([Q0, Q1, Q4, Q4, Q4, Q4, Q4, Q4], Accept)
  {
  }

  /** Rejected runs, one for each way of being rejected, with their traces. */
  lemma RejectedExamples()
    ensures Run(Table, "") == Outcome([Q0], RejectNotFinal)
    ensures Run(Table, "a") == Outcome([Q0, Q1], RejectNotFinal)
    ensures Run(Table, "bb") == Outcome([Q0, Q2, Q3], RejectNotFinal)
    ensures Run(Table, "bba") == Outcome([Q0, Q2, Q3], RejectNoTransition)
    ensures Run(Table, "abc") == Outcome([Q0, Q1, Q2], RejectInvalidSymbol)
  {
  }

  /** A "bb" anywhere rejects the string. */
  lemma DoubleBRejects(w: string, i: nat)
    requires i + 1 < |w| && w[i] == 'b' && w[i + 1] == 'b'
    ensures !Run(Table, w).Accepted()
  {
    AcceptsIffInLanguage(w);
  }

  /** The recogniser's own test strings, split by the verdict the table gives. */
  const TestRejected: seq<string> :=
    ["abba", "aababaabb", "abbabba", "abababababab", "babbaaaba", "bbbbbbb", "ababba", "aabbbaaa"]
  const TestAccepted: seq<string> := ["abaababa", "aaaaaaa", "abaaaaabaaaa"]

  lemma TestListRejected(w: string)
    requires w in TestRejected
    ensures !Run(Table, w).Accepted()
  {
    if w == "abba" { DoubleBRejects(w, 1); }
    else if w == "aababaabb" { AcceptedEndsWithA(w); }
    else if w == "abbabba" { DoubleBRejects(w, 1); }
    else if w == "abababababab" { AcceptedEndsWithA(w); }
    else if w == "babbaaaba" { DoubleBRejects(w, 2); }
    else if w == "bbbbbbb" { DoubleBRejects(w, 0); }
    else if w == "ababba" { DoubleBRejects(w, 3); }
    else { DoubleBRejects(w, 2); }
  }

  lemma TestListAccepted(w: string)
    requires w in TestAccepted
    ensures Run(Table, w).Accepted()
  {
    if w == "abaababa" {
      assert InLanguage("abaababa");
    } else if w == "aaaaaaa" {
      assert InLanguage("aaaaaaa");
    } else {
      assert InLanguage("abaaaaabaaaa");
    }
    AcceptsIffInLanguage(w);
  }
}
